=== FILE: README.md ===
# web-builder: a Dafny model of the dependency resolver and output planner

web-builder is a one-shot build step for a JavaScript project, written as
a single file, `index.js`. It reads `package-lock.json` and walks the
non-development dependencies in lock order. Each dependency gets an
*identifier*: the fragment after `#` in its locked version (a git commit,
say), or the dependency's own name when there is no fragment. The walk
fills two maps:

- `module_to_hash`: each name mapped to its identifier;
- `hash_to_modules`: each non-empty identifier mapped to the names that
  carry it, in order.

A name that occurs twice stops the build. The entry point of a
`package.json` is `main || browser`. The project's output folder is the
`dir` of the working directory joined with the project's entry point. For
each identifier, the first module of its group is copied into
`<project output folder>/<identifier>`. The copy takes that module's own
output folder: its install folder `node_modules/<name>` joined with the
`dir` of its entry point. The two agree for an entry `dir/file`. An empty
entry gives the parent of the working directory for the project, and the
install folder itself for a dependency (`Materializer.EmptyEntry`).
Finally `module_to_hash` is written out as `path-to-module.json`.

The model is pure. The file system becomes parameters:

- the parsed lock file is a `Lock`;
- the project's `package.json` is a `PackageConfig`;
- the modules' `package.json` files are a map from name to `PackageConfig`
  (a missing key means the file cannot be read);
- the working directory is a string.

The result is the list of copies the program starts plus the manifest it
writes, or the error that stops it.

Modules, in dependency order:

- `Wrappers` (`wrappers.dfy`): `Option`, `Result` and the errors.
  - `DuplicateModule`: the `process.exit(1)` of line 36.
  - `ProjectEntryMissing` and `ModuleEntryMissing`: an undefined
    `main || browser` makes `path.join` raise for the project (line 51)
    and `path.parse` raise for a dependency (line 61).
  - `MissingPackageConfig`: an unreadable module `package.json`.
- `Text` (`text.dfy`): first and last occurrence of a character. Also the
  "up to a line terminator" prefix that the regular expression `.*`
  captures.
- `Paths` (`paths.dfy`): `path.join` and the `dir` field of `path.parse`,
  for `/`-separated paths with no `.` or `..` segments.
- `Identifier` (`identifier.dfy`): `version.match(/#(.*)/)?.[1] || name`.
- `Resolver` (`resolver.dfy`): the loop of lines 27-47, in two forms.
  - A function over the prefix of the lock file, with reference
    definitions of what each map must hold.
  - A method with a loop, proved equal to the function.
- `Materializer` (`materializer.dfy`): the output folders (lines 51 and
  61), the copy plan (lines 53-69), the manifest (lines 72-78), and the
  whole build.
- `Scenarios` (`scenarios.dfy`): worked builds stated for all names and
  versions of a given shape:
  - a registry package next to a git package;
  - two packages locked at the same commit;
  - a repeated name.

Objects are modelled as ordered maps: a Dafny `map` plus the sequence of
its keys in insertion order. The manifest keeps `JSON.stringify`'s key
order, and the copies follow `for (let hash in hash_to_modules)`.

The regular expression `/#(.*)/` matches at the *first* `#`, and its `.`
stops at a line terminator (`\n`, `\r`, U+2028, U+2029). So `"a#b#c"`
gives `"b#c"` (`Identifier.FirstHashExample`).

## Model

| member | source | states |
|---|---|---|
| Identifier.Fragment | index.js:32 | the regular expression matches exactly when the version holds a `#` |
| Identifier.DeriveId | index.js:32 | the identifier is the dependency name or the captured fragment, and never empty for a non-empty name |
| Identifier.DeriveIdOfSplit | index.js:32 | for a version split as prefix without `#`, `#`, fragment without line breaks, then nothing or a line break: the identifier is the fragment when it is non-empty, otherwise the name |
| Identifier.FragmentOfSplit | index.js:32 | with the same split, group 1 of the match is exactly the fragment, which may itself contain `#` |
| Identifier.DeriveIdWithoutHash | index.js:30-32 | a version without `#` is identified by the dependency name |
| Identifier.SameFragmentSameId | index.js:32 | versions with the same non-empty fragment give the same identifier, whatever the names |
| Identifier.GitCommitExample | index.js:31-32 | `git+ssh://git@host/org/repo.git#<commit>` is identified by the commit |
| Identifier.FirstHashExample | index.js:32 | `a#b#c` is identified by `b#c`: the split is at the first `#` |
| Identifier.EmptyFragmentExample | index.js:32 | a version ending in `#` falls back to the name |
| Identifier.LineBreakExample | index.js:32 | the capture stops at a line break |
| Text.TakeLine | index.js:32 | the greedy `.*` capture: the longest prefix free of line terminators, ending at the first line terminator or at the end of the text |
| Resolver.Visit | index.js:29-45 | one iteration fails exactly when a non-development name is already recorded |
| Resolver.VisitKeepsValid | index.js:29-45 | one iteration keeps the maps consistent: key lists distinct and matching the maps, groups non-empty under non-empty identifiers, each grouped name mapped back to its group |
| Resolver.Resolve | index.js:27-47 | a successful walk leaves the maps consistent |
| Resolver.ResolveLock | index.js:27 | a lock file without `dependencies` gives two empty maps |
| Resolver.ResolveNames | index.js:29-38 | the walk succeeds exactly when no non-development name repeats, and then records those names in lock order |
| Resolver.ResolveManifest | index.js:32-38 | on success every non-development name maps to its own identifier |
| Resolver.ResolveHashes | index.js:40-43 | the identifiers with a group are listed in order of first occurrence among non-development entries, the empty identifier excluded |
| Resolver.ResolveGroupKeys | index.js:40-43 | an identifier has a group exactly when it is non-empty and some non-development entry carries it |
| Resolver.ResolveGroups | index.js:40-45 | each group holds exactly the names carrying its identifier, in lock order |
| Resolver.ResolveGroupsPartition | index.js:38-45 | a non-development name with a non-empty identifier sits in its identifier's group and in no other |
| Resolver.SameFragmentSameGroup | index.js:32-45 | entries whose versions carry the same non-empty fragment land in one group, whatever their names |
| Resolver.ResolveFirstDuplicate | index.js:34-37 | a failed walk names an entry whose name already occurred among the earlier non-development entries, which were themselves free of repeats |
| Resolver.FailureIsFinal | index.js:34-37 | once the walk stops on a prefix, later entries do not change the outcome |
| Resolver.ResolvePrefix | index.js:29-46 | the maps only grow: what a prefix records is kept, in order, with no identifier overwritten |
| Resolver.VisitGrows | index.js:38-44 | one iteration only adds to the maps |
| Resolver.DevEntriesIgnored | index.js:29 | development entries do not affect the outcome |
| Resolver.ResolveLoop | index.js:27-47 | the imperative loop ends in the same outcome as the functional resolver |
| Materializer.EntryPoint | index.js:51 | `main \|\| browser`: `main` when present and non-empty, else `browser`, else nothing |
| Materializer.ProjectDist | index.js:51 | the project output folder exists exactly when an entry point is named, and the error says so otherwise |
| Materializer.ProjectDistOfEntry | index.js:51 | for an entry `dir/file`, the project output folder is `cwd/dir` (the working directory itself when there is no `dir`) |
| Materializer.ModuleFolder | index.js:57 | a dependency is installed in `cwd/node_modules` followed by `/` and its name, scoped names included; for a plain name that folder sits directly inside `cwd/node_modules` |
| Materializer.Ready | index.js:59-61 | a dependency can be copied exactly when its `package.json` is readable and has a non-empty `main` or any `browser` |
| Materializer.ModuleDist | index.js:57-61 | a module's output folder exists exactly when its `package.json` is readable and names an entry point; the two failures have different errors |
| Materializer.ModuleDistOfEntry | index.js:57-61 | for an entry `dir/file`, a module's output folder is `cwd/node_modules/<name>/dir` |
| Materializer.EmptyEntry | index.js:51-61 | with an empty entry point the project output folder is the parent of the working directory, while a dependency's output folder is its install folder |
| Materializer.CopyPlan | index.js:53-63 | one copy per identifier, in order, taking the first module of the group and writing to the project output folder joined with the identifier |
| Materializer.CopyPlanSucceeds | index.js:53-61 | the plan is made exactly when every group's first module is ready to copy |
| Materializer.FirstUnready | index.js:53-59 | the position of the first group whose first module is not ready; all earlier ones are ready |
| Materializer.CopyPlanFirstFailure | index.js:53-61 | a plan that is not made fails with the error of the first group whose first module is not ready |
| Materializer.Build | index.js:26-78 | a successful build resolved the lock file and found the project output folder, and its manifest is exactly `module_to_hash` |
| Materializer.BuildSucceeds | index.js:26-78 | a build succeeds exactly when no non-development name repeats, the project names an entry point, and the first dependency carrying each non-empty identifier has a readable `package.json` naming an entry point |
| Materializer.BuildAbortsOnDuplicate | index.js:34-37 | a repeated name stops the build with the first repeated name; a successful build had none |
| Materializer.BuildManifest | index.js:72-78 | the manifest has one key per non-development name, in lock order, each mapped to that entry's identifier |
| Materializer.BuildCopies | index.js:53-63 | the copies follow the distinct non-empty identifiers in first-occurrence order, each taken from the first entry carrying it |
| Materializer.CopyDestinationsDistinct | index.js:63 | no two copies have the same destination string (without path normalisation, distinct strings name distinct folders) |
| Materializer.EveryDependencyCopiedOnce | index.js:38-63 | every non-development entry with a non-empty identifier is served by exactly one copy, whose source module maps to that identifier in the manifest |
| Paths.Join | index.js:57 | joining with an empty part gives the other part; otherwise the parts are separated by one `/` |
| Paths.Dir | index.js:51 | the directory is the text before the last `/`, or empty when there is none |
| Paths.DirOfJoin | index.js:51 | the directory of `dir/file` is `dir` for a plain file name |
| Paths.JoinAssoc | index.js:57 | joining is associative, so `node_modules/<name>` may be joined in either order |
| Scenarios.RegistryAndGitScenario | index.js:26-78 | a registry package and a git package give two copies, one under the package name and one under the commit, and a manifest mapping each name to its identifier |
| Scenarios.SharedCommitScenario | index.js:40-63 | two packages locked at the same commit give one copy, taken from the first of them, and both names map to the commit |
| Scenarios.DuplicateScenario | index.js:34-37 | a lock file listing `a` twice, with a development entry between, stops with `a` whatever the project holds |

## Left out

- Reading and parsing files (`JSON.fetch`, encoding detection): parsed contents are parameters. A `package.json` that cannot be read is modelled as a key missing from the module map; a failure to read the lock file or the project's `package.json` is not modelled.
- `fs.cp`, `fs.existsSync`, `fs.unlinkSync`, `fs.writeFile` and their callbacks: the model yields the list of copies and the manifest rather than performing them. The copies start concurrently and are not awaited, and a failed copy ends the process after other copies have started. Neither effect is modelled.
- A module whose `package.json` cannot be read aborts the program in the middle of the copy loop, after earlier copies have started. The model returns only the error.
- Console output and `process.exit`: modelled as the `Failure` value.
- `JSON.stringify` formatting (tab indentation): the manifest is modelled as ordered key-value pairs.
- JavaScript object quirks. Keys that look like array indices are enumerated first, in numeric order. `in` also sees names inherited from `Object.prototype` (`constructor`, `toString`, ...). The model treats both maps as plain insertion-ordered maps.
- Dependency names as object keys. The lock file's `dependencies` is a JSON object, so after parsing its names are distinct, and the repeated-name check of lines 34-37 can in practice only be triggered by inherited names. The model takes a sequence of entries so that the check is reachable.
- Path normalisation: `.` and `..` segments, repeated or trailing `/`, absolute entry points and the root directory are not modelled. `Paths.Join` only concatenates, and `Paths.Dir` only cuts at the last `/`.
- Fields of the wrong JSON type (a non-string `version`, a truthy non-boolean `dev`, a non-string `main` or `browser`): `version` is a string, `dev` a boolean, and `main` and `browser` optional strings. In particular the object form of `browser` that npm allows is not modelled; with no usable `main`, such an object makes `path.join` (line 51) or `path.parse` (line 61) raise.
- Idempotence of a rerun: the model is a pure function of its inputs, so rerunning it gives the same plan. How the file system is overwritten is not modelled.

=== FILE: identifier.dfy ===
/** The identifier a dependency is published under in the output tree:
    `version.match(/#(.*)/)?.[1] || name`. The regular expression finds the
    FIRST `#` and captures what follows it, up to a line terminator; an
    absent or empty capture falls back to the dependency name. */
module Identifier {
  import opened Wrappers
  import opened Text

  /** Group 1 of `version.match(/#(.*)/)`, or None when there is no match. */
  function Fragment(version: string): (r: Option<string>)
    ensures r.None? <==> '#' !in version
  {
    match IndexOf(version, '#')
    case None => None
    case Some(i) => Some(TakeLine(version[i + 1..]))
  }

  /** The identifier of dependency `name` locked at `version`. */
  function DeriveId(name: string, version: string): (id: string)
    ensures id == name || Fragment(version) == Some(id)
    ensures name != "" ==> id != ""
  {
    match Fragment(version)
    case Some(f) => if f != "" then f else name
    case None => name
  }

  /** Independent description of the match: a version made of a prefix
      without `#`, then `#`, then a fragment without line terminators, then
      nothing or a line terminator, has exactly that fragment as group 1.
      The prefix may not hold a `#`, but the fragment may: the split is at
      the first `#`. */
  lemma FragmentOfSplit(prefix: string, fragment: string, rest: string)
    requires '#' !in prefix
    requires forall i :: 0 <= i < |fragment| ==> !IsLineTerminator(fragment[i])
    requires rest == "" || IsLineTerminator(rest[0])
    ensures Fragment(prefix + "#" + fragment + rest) == Some(fragment)
  {
    var v := prefix + "#" + fragment + rest;
    assert v[|prefix|] == '#';
    assert v[..|prefix|] == prefix;
    var i := IndexOf(v, '#').value;
    assert i == |prefix|;
    assert v[i + 1..] == fragment + rest;
    TakeLineOfSplit(fragment, rest);
  }

  lemma {:induction false} TakeLineOfSplit(line: string, rest: string)
    requires forall i :: 0 <= i < |line| ==> !IsLineTerminator(line[i])
    requires rest == "" || IsLineTerminator(rest[0])
    ensures TakeLine(line + rest) == line
  {
    if line != "" {
      assert (line + rest)[1..] == line[1..] + rest;
      TakeLineOfSplit(line[1..], rest);
    }
  }

  /** The identifier rule in terms of the split: the text after the first
      `#` when it is non-empty, the dependency name otherwise. */
  lemma DeriveIdOfSplit(name: string, prefix: string, fragment: string, rest: string)
    requires '#' !in prefix
    requires forall i :: 0 <= i < |fragment| ==> !IsLineTerminator(fragment[i])
    requires rest == "" || IsLineTerminator(rest[0])
    ensures DeriveId(name, prefix + "#" + fragment + rest) == if fragment != "" then fragment else name
  {
    FragmentOfSplit(prefix, fragment, rest);
  }

  /** A version without `#` (a plain semantic version) is addressed by the
      dependency name. */
  lemma DeriveIdWithoutHash(name: string, version: string)
    requires '#' !in version
    ensures DeriveId(name, version) == name
  {
  }

  /** Two versions carrying the same non-empty fragment give the same
      identifier, whatever the dependency names. */
  lemma SameFragmentSameId(name1: string, version1: string, name2: string, version2: string)
    requires Fragment(version1) == Fragment(version2)
    requires Fragment(version1).Some? && Fragment(version1).value != ""
    ensures DeriveId(name1, version1) == DeriveId(name2, version2) == Fragment(version1).value
  {
  }

  /** Membership in a short literal, checked character by character. */
  lemma NoHashIn(s: string)
    requires forall i :: 0 <= i < |s| ==> s[i] != '#'
    ensures '#' !in s
  {
  }

  /** A version made of a `#`-free prefix, `#` and a commit without line
      breaks is addressed by the commit. */
  lemma DeriveIdOfCommit(name: string, prefix: string, commit: string)
    requires '#' !in prefix
    requires commit != "" && forall i :: 0 <= i < |commit| ==> !IsLineTerminator(commit[i])
    ensures DeriveId(name, prefix + "#" + commit) == commit
  {
    DeriveIdOfSplit(name, prefix, commit, "");
    assert prefix + "#" + commit + "" == prefix + "#" + commit;
  }

  /** A git URL is addressed by the commit after its `#`. */
  lemma GitCommitExample(commit: string)
    requires commit != "" && forall i :: 0 <= i < |commit| ==> !IsLineTerminator(commit[i])
    ensures DeriveId("repo", "git+ssh://git@host/org/repo.git#" + commit) == commit
  {
    var prefix := "git+ssh://git@host/org/repo.git";
    assert prefix == "git+ssh://" + "git@host/" + "org/repo.git";
    NoHashIn("git+ssh://");
    NoHashIn("git@host/");
    NoHashIn("org/repo.git");
    DeriveIdOfCommit("repo", prefix, commit);
    assert prefix + "#" == "git+ssh://git@host/org/repo.git#";
  }

  /** The split is at the first `#`, not the last. */
  lemma FirstHashExample()
    ensures DeriveId("pkg", "a#b#c") == "b#c"
  {
    DeriveIdOfSplit("pkg", "a", "b#c", "");
    assert "a" + "#" + "b#c" + "" == "a#b#c";
  }

  /** A version ending in `#` captures nothing and falls back to the name. */
  lemma EmptyFragmentExample()
    ensures DeriveId("pkg", "1.0.0#") == "pkg"
  {
    DeriveIdOfSplit("pkg", "1.0.0", "", "");
    assert "1.0.0" + "#" + "" + "" == "1.0.0#";
  }

  /** The capture stops at a line break. */
  lemma LineBreakExample()
    ensures DeriveId("pkg", "x#ab\ncd") == "ab"
  {
    DeriveIdOfSplit("pkg", "x", "ab", "\ncd");
    assert "x" + "#" + "ab" + "\ncd" == "x#ab\ncd";
  }
}

=== FILE: materializer.dfy ===
/** The second half of `WebBuilder` (index.js, lines 48-82): find the
    project's output directory, plan one copy per distinct identifier from
    the first module of its group, and produce the `path-to-module.json`
    manifest. File reads become the `configs` parameter (each dependency's
    parsed package.json, keyed by name); copies and writes are returned as
    a plan instead of performed. */
module Materializer {
  import opened Wrappers
  import opened Paths
  import opened Resolver

  /** The fields of a package.json the builder reads. */
  datatype PackageConfig = PackageConfig(main: Option<string>, browser: Option<string>)

  /** One recursive copy: the output of dependency `pkg` goes to `destination`,
      the folder named after identifier `hash`. */
  datatype Copy = Copy(hash: string, pkg: string, source: string, destination: string)

  /** `path-to-module.json`: `module_to_hash` with its keys in order. */
  datatype Manifest = Manifest(keys: seq<string>, entries: map<string, string>)

  datatype Output = Output(copies: seq<Copy>, manifest: Manifest)

  /** `config.main || config.browser`: `main` unless it is absent or empty,
      otherwise `browser` (which may itself be empty); nothing when that is
      absent too. */
  function EntryPoint(c: PackageConfig): (r: Option<string>)
    ensures r.Some? <==> (c.main.Some? && c.main.value != "") || c.browser.Some?
    ensures r.Some? && r != c.browser ==> r == c.main && r.value != ""
    ensures r.Some? && r != c.main ==> r == c.browser && (c.main.None? || c.main.value == "")
  {
    match c.main
    case Some(m) => if m != "" then c.main else c.browser
    case None => c.browser
  }

  /** `path.parse(path.join(cwd, entry)).dir` for the project. */
  function ProjectDist(cwd: string, project: PackageConfig): (r: Result<string, Error>)
    ensures r.Failure? <==> EntryPoint(project).None?
    ensures r.Failure? ==> r.error == ProjectEntryMissing
  {
    match EntryPoint(project)
    case None => Failure(ProjectEntryMissing)
    case Some(entry) => Success(Dir(Join(cwd, entry)))
  }

  /** Where the dependency `name` is installed. */
  function ModuleFolder(cwd: string, name: string): (r: string)
    ensures r != ""
    ensures name != "" ==> (|r| > |name| && r[|r| - |name| - 1] == '/' && r[|r| - |name|..] == name
      && r[..|r| - |name| - 1] == Join(cwd, "node_modules"))
    ensures name != "" && '/' !in name ==> Dir(r) == Join(cwd, "node_modules")
  {
    var parent := Join(cwd, "node_modules");
    if name != "" && '/' !in name then DirOfJoin(parent, name); Join(parent, name)
    else Join(parent, name)
  }

  /** A dependency is ready to copy when its package.json can be read and
      names an entry point. */
  predicate Ready(name: string, configs: map<string, PackageConfig>): (b: bool)
    ensures b <==> (name in configs
      && ((configs[name].main.Some? && configs[name].main.value != "") || configs[name].browser.Some?))
  {
    name in configs && EntryPoint(configs[name]).Some?
  }

  /** `path.join(module_folder, path.parse(entry).dir)` for a dependency. */
  function ModuleDist(cwd: string, name: string, configs: map<string, PackageConfig>): (r: Result<string, Error>)
    ensures r.Success? <==> Ready(name, configs)
    ensures r.Failure? ==> r.error == if name in configs then ModuleEntryMissing(name) else MissingPackageConfig(name)
  {
    if name !in configs then Failure(MissingPackageConfig(name))
    else match EntryPoint(configs[name])
      case None => Failure(ModuleEntryMissing(name))
      case Some(entry) => Success(Join(ModuleFolder(cwd, name), Dir(entry)))
  }

  /** The project's output directory is the folder holding its entry file,
      taken relative to the working directory; an entry file with no `/`
      gives the working directory itself. */
  lemma ProjectDistOfEntry(cwd: string, project: PackageConfig, dir: string, file: string)
    requires EntryPoint(project) == Some(Join(dir, file))
    requires file != "" && '/' !in file
    ensures ProjectDist(cwd, project) == Success(Join(cwd, dir))
  {
    JoinAssoc(cwd, dir, file);
    DirOfJoin(Join(cwd, dir), file);
  }

  /** A dependency's output directory is derived the same way, inside its
      install folder; an entry file with no `/` gives the install folder. */
  lemma ModuleDistOfEntry(cwd: string, name: string, configs: map<string, PackageConfig>, dir: string, file: string)
    requires name in configs && EntryPoint(configs[name]) == Some(Join(dir, file))
    requires file != "" && '/' !in file
    ensures ModuleDist(cwd, name, configs) == Success(Join(ModuleFolder(cwd, name), dir))
  {
    DirOfJoin(dir, file);
  }

  /** The two output folders are derived in different orders: the
      project's joins the entry onto the working directory and then takes
      the directory, a dependency's takes the directory of the entry and
      then joins. An empty entry tells them apart: the project gets the
      parent of the working directory, a dependency its install folder. */
  lemma EmptyEntry(cwd: string, project: PackageConfig, name: string, configs: map<string, PackageConfig>)
    requires EntryPoint(project) == Some("")
    requires name in configs && EntryPoint(configs[name]) == Some("")
    ensures ProjectDist(cwd, project) == Success(Dir(cwd))
    ensures ModuleDist(cwd, name, configs) == Success(ModuleFolder(cwd, name))
  {
  }

  /** The loop of index.js, lines 53-69, as a plan: for each identifier in
      order, copy the output of the first module of its group to the
      project output folder named after the identifier. The first module
      whose package.json is unusable stops the plan. */
  function CopyPlan(cwd: string, dist: string, hashes: seq<string>, groups: map<string, seq<string>>,
                    configs: map<string, PackageConfig>): (r: Result<seq<Copy>, Error>)
    requires forall h :: h in hashes ==> h in groups && groups[h] != []
    ensures r.Success? ==> |r.value| == |hashes| && forall i :: 0 <= i < |hashes| ==>
      && r.value[i].hash == hashes[i]
      && r.value[i].pkg == groups[hashes[i]][0]
      && r.value[i].destination == Join(dist, hashes[i])
      && ModuleDist(cwd, r.value[i].pkg, configs) == Success(r.value[i].source)
  {
    if |hashes| == 0 then Success([])
    else
      var h := hashes[0];
      var rep := groups[h][0];
      match ModuleDist(cwd, rep, configs)
      case Failure(err) => Failure(err)
      case Success(source) =>
        match CopyPlan(cwd, dist, hashes[1..], groups, configs)
        case Failure(err) => Failure(err)
        case Success(rest) => Success([Copy(h, rep, source, Join(dist, h))] + rest)
  }

  /** The plan is made exactly when every representative is ready to copy. */
  lemma {:induction false} CopyPlanSucceeds(cwd: string, dist: string, hashes: seq<string>, groups: map<string, seq<string>>,
                                            configs: map<string, PackageConfig>)
    requires forall h :: h in hashes ==> h in groups && groups[h] != []
    ensures CopyPlan(cwd, dist, hashes, groups, configs).Success? <==>
      forall i :: 0 <= i < |hashes| ==> Ready(groups[hashes[i]][0], configs)
  {
    if |hashes| > 0 {
      var tail := hashes[1..];
      CopyPlanSucceeds(cwd, dist, tail, groups, configs);
      assert forall i :: 1 <= i < |hashes| ==> hashes[i] == tail[i - 1];
    }
  }

  /** The position of the first identifier whose representative is not
      ready to copy, or the length of the list when there is none. */
  function FirstUnready(hashes: seq<string>, groups: map<string, seq<string>>,
                        configs: map<string, PackageConfig>): (i: nat)
    requires forall h :: h in hashes ==> h in groups && groups[h] != []
    ensures i <= |hashes|
    ensures forall k :: 0 <= k < i ==> Ready(groups[hashes[k]][0], configs)
    ensures i < |hashes| ==> !Ready(groups[hashes[i]][0], configs)
  {
    if |hashes| == 0 || !Ready(groups[hashes[0]][0], configs) then 0
    else 1 + FirstUnready(hashes[1..], groups, configs)
  }

  /** A plan that is not made stops with the error of the first
      representative that is not ready. */
  lemma {:induction false} CopyPlanFirstFailure(cwd: string, dist: string, hashes: seq<string>, groups: map<string, seq<string>>,
                                                configs: map<string, PackageConfig>)
    requires forall h :: h in hashes ==> h in groups && groups[h] != []
    ensures var i := FirstUnready(hashes, groups, configs);
      && (CopyPlan(cwd, dist, hashes, groups, configs).Failure? <==> i < |hashes|)
      && (i < |hashes| ==>
            CopyPlan(cwd, dist, hashes, groups, configs) == Failure(ModuleDist(cwd, groups[hashes[i]][0], configs).error))
  {
    if |hashes| > 0 && Ready(groups[hashes[0]][0], configs) {
      var tail := hashes[1..];
      CopyPlanFirstFailure(cwd, dist, tail, groups, configs);
      var j := FirstUnready(tail, groups, configs);
      assert FirstUnready(hashes, groups, configs) == 1 + j;
      if j < |tail| {
        assert hashes[1 + j] == tail[j];
      }
    }
  }

  /** The whole build: resolve the lock file (stopping on a repeated name
      before anything else happens), find the project output folder, plan
      the copies and produce the manifest, which is exactly `module_to_hash`. */
  function Build(cwd: string, lock: Lock, project: PackageConfig, configs: map<string, PackageConfig>): (r: Result<Output, Error>)
    ensures r.Success? ==> ResolveLock(lock).Success? && ProjectDist(cwd, project).Success?
    ensures r.Success? ==>
      r.value.manifest == Manifest(ResolveLock(lock).value.names, ResolveLock(lock).value.moduleToHash)
  {
    var res :- ResolveLock(lock);
    var dist :- ProjectDist(cwd, project);
    var copies :- CopyPlan(cwd, dist, res.hashes, res.hashToModules, configs);
    Success(Output(copies, Manifest(res.names, res.moduleToHash)))
  }

  /** Conversely, a build succeeds whenever its three stages do, and is
      made of their results. */
  lemma BuildFromStages(cwd: string, lock: Lock, project: PackageConfig, configs: map<string, PackageConfig>,
                        res: Resolution, dist: string, copies: seq<Copy>)
    requires ResolveLock(lock) == Success(res) && ProjectDist(cwd, project) == Success(dist)
    requires CopyPlan(cwd, dist, res.hashes, res.hashToModules, configs) == Success(copies)
    ensures Build(cwd, lock, project, configs) == Success(Output(copies, Manifest(res.names, res.moduleToHash)))
  {
  }

  /** How a successful build is put together. */
  lemma BuildParts(cwd: string, deps: seq<Entry>, project: PackageConfig, configs: map<string, PackageConfig>)
    requires Build(cwd, Lock(Some(deps)), project, configs).Success?
    ensures Resolve(deps).Success? && Valid(Resolve(deps).value) && ProjectDist(cwd, project).Success?
    ensures var res := Resolve(deps).value;
      && (forall h :: h in res.hashes ==> h in res.hashToModules && res.hashToModules[h] != [])
      && CopyPlan(cwd, ProjectDist(cwd, project).value, res.hashes, res.hashToModules, configs).Success?
      && Build(cwd, Lock(Some(deps)), project, configs).value.copies
         == CopyPlan(cwd, ProjectDist(cwd, project).value, res.hashes, res.hashToModules, configs).value
  {
    var res := Resolve(deps).value;
    assert KeysInOrder(res) && GroupsSound(res);
  }

  /** A repeated dependency name aborts the build before any copy or
      manifest is produced, with the first repeated name; a build that
      succeeds had no repeated name. */
  lemma BuildAbortsOnDuplicate(cwd: string, deps: seq<Entry>, project: PackageConfig, configs: map<string, PackageConfig>)
    ensures Build(cwd, Lock(Some(deps)), project, configs).Success? ==> Distinct(NonDevNames(deps))
    ensures !Distinct(NonDevNames(deps)) ==>
      exists j :: (0 <= j < |deps| && !deps[j].dev
        && Build(cwd, Lock(Some(deps)), project, configs) == Failure(DuplicateModule(deps[j].name))
        && deps[j].name in NonDevNames(deps[..j])
        && Distinct(NonDevNames(deps[..j])))
  {
    ResolveNames(deps);
    if Resolve(deps).Failure? {
      ResolveFirstDuplicate(deps);
    }
  }

  /** The manifest of a successful build has one key per non-development
      dependency, in lock order, each mapped to that dependency's identifier. */
  lemma BuildManifest(cwd: string, deps: seq<Entry>, project: PackageConfig, configs: map<string, PackageConfig>)
    requires Build(cwd, Lock(Some(deps)), project, configs).Success?
    ensures var m := Build(cwd, Lock(Some(deps)), project, configs).value.manifest;
      && m.keys == NonDevNames(deps)
      && (forall n :: n in m.entries <==> n in m.keys)
      && (forall i :: 0 <= i < |deps| && !deps[i].dev ==>
            deps[i].name in m.entries && m.entries[deps[i].name] == HashOf(deps[i]))
  {
    ResolveNames(deps);
    ResolveManifest(deps);
  }

  /** The copies of a successful build: one per distinct non-empty
      identifier, in order of first occurrence, each taking the output of
      the first dependency carrying that identifier and writing it to the
      project output folder joined with the identifier. */
  lemma BuildCopies(cwd: string, deps: seq<Entry>, project: PackageConfig, configs: map<string, PackageConfig>)
    requires Build(cwd, Lock(Some(deps)), project, configs).Success?
    ensures var out := Build(cwd, Lock(Some(deps)), project, configs).value;
      var dist := ProjectDist(cwd, project).value;
      && |out.copies| == |FirstSeen(deps)|
      && forall i :: 0 <= i < |out.copies| ==>
        && out.copies[i].hash == FirstSeen(deps)[i]
        && GroupOf(deps, out.copies[i].hash) != []
        && out.copies[i].pkg == GroupOf(deps, out.copies[i].hash)[0]
        && out.copies[i].destination == Join(dist, out.copies[i].hash)
        && ModuleDist(cwd, out.copies[i].pkg, configs) == Success(out.copies[i].source)
  {
    BuildParts(cwd, deps, project, configs);
    ResolveHashes(deps);
    ResolveGroups(deps);
  }

  /** The first dependency carrying each non-empty identifier is ready. */
  ghost predicate RepresentativesReady(deps: seq<Entry>, configs: map<string, PackageConfig>) {
    forall h :: h in FirstSeen(deps) ==> GroupOf(deps, h) != [] && Ready(GroupOf(deps, h)[0], configs)
  }

  /** A build succeeds exactly when no non-development name repeats, the
      project names an entry point, and the first dependency carrying each
      non-empty identifier is ready to copy. */
  lemma BuildSucceeds(cwd: string, deps: seq<Entry>, project: PackageConfig, configs: map<string, PackageConfig>)
    ensures Build(cwd, Lock(Some(deps)), project, configs).Success? <==>
      && Distinct(NonDevNames(deps))
      && EntryPoint(project).Some?
      && RepresentativesReady(deps, configs)
  {
    if Build(cwd, Lock(Some(deps)), project, configs).Success? {
      BuildSucceedsOnlyIf(cwd, deps, project, configs);
    } else if Distinct(NonDevNames(deps)) && EntryPoint(project).Some? && RepresentativesReady(deps, configs) {
      BuildSucceedsIf(cwd, deps, project, configs);
    }
  }

  lemma BuildSucceedsOnlyIf(cwd: string, deps: seq<Entry>, project: PackageConfig, configs: map<string, PackageConfig>)
    requires Build(cwd, Lock(Some(deps)), project, configs).Success?
    ensures Distinct(NonDevNames(deps)) && EntryPoint(project).Some? && RepresentativesReady(deps, configs)
  {
    BuildAbortsOnDuplicate(cwd, deps, project, configs);
    BuildCopies(cwd, deps, project, configs);
    var seen := FirstSeen(deps);
    var copies := Build(cwd, Lock(Some(deps)), project, configs).value.copies;
    forall h | h in seen
      ensures GroupOf(deps, h) != [] && Ready(GroupOf(deps, h)[0], configs)
    {
      var i :| 0 <= i < |seen| && seen[i] == h;
      assert copies[i].hash == h;
    }
  }

  lemma BuildSucceedsIf(cwd: string, deps: seq<Entry>, project: PackageConfig, configs: map<string, PackageConfig>)
    requires Distinct(NonDevNames(deps)) && EntryPoint(project).Some? && RepresentativesReady(deps, configs)
    ensures Build(cwd, Lock(Some(deps)), project, configs).Success?
  {
    ResolveNames(deps);
    ResolveHashes(deps);
    ResolveGroups(deps);
    var res := Resolve(deps).value;
    var dist := ProjectDist(cwd, project).value;
    assert KeysInOrder(res) && GroupsSound(res);
    forall i | 0 <= i < |res.hashes|
      ensures Ready(res.hashToModules[res.hashes[i]][0], configs)
    {
      assert res.hashes[i] in FirstSeen(deps);
    }
    CopyPlanSucceeds(cwd, dist, res.hashes, res.hashToModules, configs);
    var copies := CopyPlan(cwd, dist, res.hashes, res.hashToModules, configs).value;
    BuildFromStages(cwd, Lock(Some(deps)), project, configs, res, dist, copies);
  }

  /** Distinct identifiers give distinct destination strings. Without
      path normalisation these name distinct folders. */
  lemma CopyDestinationsDistinct(cwd: string, deps: seq<Entry>, project: PackageConfig, configs: map<string, PackageConfig>)
    requires Build(cwd, Lock(Some(deps)), project, configs).Success?
    ensures var copies := Build(cwd, Lock(Some(deps)), project, configs).value.copies;
      forall i, j :: 0 <= i < |copies| && 0 <= j < |copies| && i != j ==>
        copies[i].destination != copies[j].destination
  {
    BuildParts(cwd, deps, project, configs);
    var res := Resolve(deps).value;
    var copies := Build(cwd, Lock(Some(deps)), project, configs).value.copies;
    assert KeysInOrder(res);
    forall i, j | 0 <= i < |copies| && 0 <= j < |copies| && i != j
      ensures copies[i].destination != copies[j].destination
    {
      JoinInjective(ProjectDist(cwd, project).value, res.hashes[i], res.hashes[j]);
    }
  }

  /** Every non-development dependency with a non-empty identifier is served
      by exactly one copy, whose source is a dependency with that same
      identifier in the manifest. */
  lemma EveryDependencyCopiedOnce(cwd: string, deps: seq<Entry>, project: PackageConfig, configs: map<string, PackageConfig>,
                                  d: nat)
    requires Build(cwd, Lock(Some(deps)), project, configs).Success?
    requires d < |deps| && !deps[d].dev && HashOf(deps[d]) != ""
    ensures var out := Build(cwd, Lock(Some(deps)), project, configs).value;
      exists k :: (0 <= k < |out.copies| && out.copies[k].hash == HashOf(deps[d])
        && out.copies[k].pkg in out.manifest.entries
        && out.manifest.entries[out.copies[k].pkg] == HashOf(deps[d])
        && forall k' :: 0 <= k' < |out.copies| && out.copies[k'].hash == HashOf(deps[d]) ==> k' == k)
  {
    BuildParts(cwd, deps, project, configs);
    var res := Resolve(deps).value;
    var out := Build(cwd, Lock(Some(deps)), project, configs).value;
    var dist := ProjectDist(cwd, project).value;
    assert out.copies == CopyPlan(cwd, dist, res.hashes, res.hashToModules, configs).value;
    assert out.manifest.entries == res.moduleToHash;
    ResolveGroupsPartition(deps, d);
    var h := HashOf(deps[d]);
    assert KeysInOrder(res);
    assert h in res.hashes;
    var k :| 0 <= k < |res.hashes| && res.hashes[k] == h;
    assert out.copies[k].hash == h;
    assert out.copies[k].pkg == res.hashToModules[h][0];
    assert GroupsSound(res);
    assert res.hashToModules[h][0] in res.moduleToHash && res.moduleToHash[res.hashToModules[h][0]] == h;
    forall k' | 0 <= k' < |out.copies| && out.copies[k'].hash == h
      ensures k' == k
    {
      assert res.hashes[k'] == res.hashes[k];
    }
  }
}

=== FILE: paths.dfy ===
/** A `/`-separated path model standing in for Node's `path.join` and the
    `dir` field of `path.parse`. Paths are `/`-separated strings, and an
    absolute one simply starts with `/`; no `.`/`..` or duplicate-separator
    normalisation is modelled. */
module Paths {
  import opened Text

  /** `path.join(a, b)`: empty components vanish, otherwise one separator. */
  function Join(a: string, b: string): (r: string)
    ensures a == "" ==> r == b
    ensures b == "" ==> r == a
    ensures a != "" && b != "" ==> |r| == |a| + 1 + |b| && r[..|a|] == a && r[|a|] == '/' && r[|a| + 1..] == b
  {
    if a == "" then b
    else if b == "" then a
    else a + "/" + b
  }

  /** `path.parse(p).dir`: everything before the last `/`, or "" when the
      path has no `/`. */
  function Dir(p: string): (r: string)
    ensures '/' !in p ==> r == ""
    ensures '/' in p ==> |r| < |p| && p[|r|] == '/' && r == p[..|r|] && '/' !in p[|r| + 1..]
  {
    match LastIndexOf(p, '/')
    case None => ""
    case Some(i) => p[..i]
  }

  /** Joining is associative, so a project-relative entry point joined onto
      the working directory is the same as joining its parts one by one. */
  lemma JoinAssoc(a: string, b: string, c: string)
    ensures Join(a, Join(b, c)) == Join(Join(a, b), c)
  {
    if a != "" && b != "" && c != "" {
      assert a + "/" + (b + "/" + c) == (a + "/" + b) + "/" + c;
    }
  }

  /** The directory part of `dir/file` is `dir` whenever `file` is a plain
      file name: in particular a file name without `/` yields the folder it
      was joined onto, and "" on its own. */
  lemma DirOfJoin(dir: string, file: string)
    requires file != "" && '/' !in file
    ensures Dir(Join(dir, file)) == dir
  {
    if dir != "" {
      var p := dir + "/" + file;
      assert p[|dir|] == '/';
      assert p[|dir| + 1..] == file;
    }
  }

  /** Joining a fixed directory onto different non-empty names gives
      different paths. */
  lemma JoinInjective(dir: string, a: string, b: string)
    requires a != "" && b != "" && a != b
    ensures Join(dir, a) != Join(dir, b)
  {
  }
}

=== FILE: resolver.dfy ===
/** The dependency resolver of `WebBuilder` (index.js, lines 22-47): one pass
    over the lock file's dependencies that builds `module_to_hash` (name to
    identifier) and `hash_to_modules` (identifier to the names sharing it),
    or stops at the first name seen twice. JavaScript objects iterate in
    insertion order, so each map is kept together with its ordered keys. */
module Resolver {
  import opened Wrappers
  import opened Identifier

  /** One entry of the lock file's `dependencies` object. */
  datatype Entry = Entry(name: string, version: string, dev: bool)

  /** The parsed lock file; `dependencies` may be absent. */
  datatype Lock = Lock(dependencies: Option<seq<Entry>>)

  /** The two maps with their keys in insertion order: `names` are the keys
      of `moduleToHash`, `hashes` the keys of `hashToModules`. */
  datatype Resolution = Resolution(
    names: seq<string>,
    moduleToHash: map<string, string>,
    hashes: seq<string>,
    hashToModules: map<string, seq<string>>)

  const Empty: Resolution := Resolution([], map[], [], map[])

  function HashOf(e: Entry): string {
    DeriveId(e.name, e.version)
  }

  predicate Distinct<T(==)>(s: seq<T>) {
    forall i, j :: 0 <= i < j < |s| ==> s[i] != s[j]
  }

  /** The ordered key lists hold each key of their map exactly once. */
  ghost predicate KeysInOrder(r: Resolution) {
    && Distinct(r.names)
    && (forall n :: n in r.moduleToHash <==> n in r.names)
    && Distinct(r.hashes)
    && (forall h :: h in r.hashToModules <==> h in r.hashes)
  }

  /** Every group is a non-empty list of distinct names under a non-empty
      identifier, and every grouped name maps back to its group's identifier. */
  ghost predicate GroupsSound(r: Resolution) {
    && (forall h :: h in r.hashToModules ==> h != "" && r.hashToModules[h] != [] && Distinct(r.hashToModules[h]))
    && (forall h, i :: h in r.hashToModules && 0 <= i < |r.hashToModules[h]| ==>
          r.hashToModules[h][i] in r.moduleToHash && r.moduleToHash[r.hashToModules[h][i]] == h)
  }

  /** Every name with a non-empty identifier sits in that identifier's group. */
  ghost predicate GroupsComplete(r: Resolution) {
    forall n :: n in r.moduleToHash && r.moduleToHash[n] != "" ==>
      r.moduleToHash[n] in r.hashToModules && n in r.hashToModules[r.moduleToHash[n]]
  }

  /** The grouping invariant the resolver keeps. */
  ghost predicate Valid(r: Resolution) {
    KeysInOrder(r) && GroupsSound(r) && GroupsComplete(r)
  }

  /** One iteration of the loop: skip development entries, reject a name
      already recorded, record the identifier, and append the name to its
      identifier's group unless the identifier is empty. */
  function Visit(r: Resolution, e: Entry): (x: Result<Resolution, Error>)
    ensures x.Failure? <==> !e.dev && e.name in r.moduleToHash
  {
    if e.dev then Success(r)
    else if e.name in r.moduleToHash then Failure(DuplicateModule(e.name))
    else
      var h := HashOf(e);
      var r' := r.(names := r.names + [e.name], moduleToHash := r.moduleToHash[e.name := h]);
      if h == "" then Success(r')
      else if h in r'.hashToModules then
        Success(r'.(hashToModules := r'.hashToModules[h := r'.hashToModules[h] + [e.name]]))
      else
        Success(r'.(hashes := r'.hashes + [h], hashToModules := r'.hashToModules[h := [e.name]]))
  }

  /** The whole loop over the dependencies in lock order. */
  function Resolve(deps: seq<Entry>): (r: Result<Resolution, Error>)
    ensures r.Success? ==> Valid(r.value)
  {
    if |deps| == 0 then Success(Empty)
    else match Resolve(deps[..|deps| - 1])
      case Failure(err) => Failure(err)
      case Success(prev) =>
        VisitKeepsValid(prev, deps[|deps| - 1]);
        Visit(prev, deps[|deps| - 1])
  }

  /** One iteration keeps the grouping invariant. */
  lemma VisitKeepsValid(r: Resolution, e: Entry)
    requires Valid(r)
    ensures Visit(r, e).Success? ==> Valid(Visit(r, e).value)
  {
    if !e.dev && e.name !in r.moduleToHash {
      var n := e.name;
      var h := HashOf(e);
      var x := Visit(r, e).value;
      assert n !in r.names;
      DistinctSnoc(r.names, n);
      assert x.names == r.names + [n];
      assert x.moduleToHash == r.moduleToHash[n := h];
      forall g, i | g in r.hashToModules && 0 <= i < |r.hashToModules[g]|
        ensures r.hashToModules[g][i] != n
      {
        assert r.hashToModules[g][i] in r.moduleToHash;
      }
      if h == "" {
        assert x.hashToModules == r.hashToModules && x.hashes == r.hashes;
      } else if h in r.hashToModules {
        var grp := r.hashToModules[h];
        assert n !in grp;
        DistinctSnoc(grp, n);
        assert x.hashToModules == r.hashToModules[h := grp + [n]];
        assert x.hashes == r.hashes;
      } else {
        assert h !in r.hashes;
        DistinctSnoc(r.hashes, h);
        assert x.hashToModules == r.hashToModules[h := [n]];
        assert x.hashes == r.hashes + [h];
      }
    }
  }

  /** `if (lock.dependencies) { ... }`: no dependencies, no entries. */
  function ResolveLock(lock: Lock): (r: Result<Resolution, Error>)
    ensures lock.dependencies.None? ==> r == Success(Empty)
    ensures r.Success? ==> Valid(r.value)
  {
    match lock.dependencies
    case None => Success(Empty)
    case Some(deps) => Resolve(deps)
  }

  // Reference definitions, stated over the entry sequence alone.

  /** Names of the non-development entries, in lock order. */
  function NonDevNames(deps: seq<Entry>): seq<string> {
    if |deps| == 0 then []
    else
      var e := deps[|deps| - 1];
      NonDevNames(deps[..|deps| - 1]) + (if e.dev then [] else [e.name])
  }

  /** Names of the non-development entries whose identifier is `h`, in lock order. */
  function GroupOf(deps: seq<Entry>, h: string): seq<string> {
    if |deps| == 0 then []
    else
      var e := deps[|deps| - 1];
      GroupOf(deps[..|deps| - 1], h) + (if !e.dev && HashOf(e) == h then [e.name] else [])
  }

  /** The distinct non-empty identifiers of the non-development entries, in
      order of first occurrence. */
  function FirstSeen(deps: seq<Entry>): seq<string> {
    if |deps| == 0 then []
    else
      var e := deps[|deps| - 1];
      var p := FirstSeen(deps[..|deps| - 1]);
      if !e.dev && HashOf(e) != "" && HashOf(e) !in p then p + [HashOf(e)] else p
  }

  /** The non-development entries, in lock order. */
  function NonDev(deps: seq<Entry>): (r: seq<Entry>)
    ensures forall i :: 0 <= i < |r| ==> !r[i].dev
  {
    if |deps| == 0 then []
    else
      var e := deps[|deps| - 1];
      NonDev(deps[..|deps| - 1]) + (if e.dev then [] else [e])
  }

  lemma DistinctSnoc<T>(s: seq<T>, x: T)
    ensures Distinct(s + [x]) <==> Distinct(s) && x !in s
  {
    var t := s + [x];
    assert forall i :: 0 <= i < |s| ==> t[i] == s[i];
    assert t[|s|] == x;
    if Distinct(t) {
      assert x !in s by {
        forall i | 0 <= i < |s| ensures s[i] != x {
          assert t[i] != t[|s|];
        }
      }
    }
  }

  lemma {:induction false} FirstSeenMembership(deps: seq<Entry>, h: string)
    ensures h in FirstSeen(deps) <==> h != "" && GroupOf(deps, h) != []
  {
    if |deps| > 0 {
      FirstSeenMembership(deps[..|deps| - 1], h);
    }
  }

  /** The resolver succeeds exactly when no non-development name repeats,
      and then records the non-development names in lock order. */
  lemma {:induction false} ResolveNames(deps: seq<Entry>)
    ensures Resolve(deps).Success? <==> Distinct(NonDevNames(deps))
    ensures Resolve(deps).Success? ==> Resolve(deps).value.names == NonDevNames(deps)
  {
    if |deps| > 0 {
      var p := deps[..|deps| - 1];
      var e := deps[|deps| - 1];
      ResolveNames(p);
      assert NonDevNames(deps) == NonDevNames(p) + (if e.dev then [] else [e.name]);
      if !e.dev {
        DistinctSnoc(NonDevNames(p), e.name);
      }
      if Resolve(p).Success? {
        var prev := Resolve(p).value;
        assert KeysInOrder(prev);
        assert e.name in prev.moduleToHash <==> e.name in NonDevNames(p);
      } else if e.dev {
        assert NonDevNames(deps) == NonDevNames(p);
      }
    }
  }

  /** On success every non-development entry is recorded under its own
      identifier. */
  lemma {:induction false} ResolveManifest(deps: seq<Entry>)
    requires Resolve(deps).Success?
    ensures forall i :: 0 <= i < |deps| && !deps[i].dev ==>
      deps[i].name in Resolve(deps).value.moduleToHash
      && Resolve(deps).value.moduleToHash[deps[i].name] == HashOf(deps[i])
  {
    if |deps| > 0 {
      var p := deps[..|deps| - 1];
      var e := deps[|deps| - 1];
      ResolveManifest(p);
      var prev := Resolve(p).value;
      var r := Resolve(deps).value;
      assert Resolve(deps) == Visit(prev, e);
      VisitGrows(prev, e);
      forall i | 0 <= i < |deps| && !deps[i].dev
        ensures deps[i].name in r.moduleToHash && r.moduleToHash[deps[i].name] == HashOf(deps[i])
      {
        if i < |p| {
          assert deps[i] == p[i];
        } else {
          assert r.moduleToHash == prev.moduleToHash[e.name := HashOf(e)];
        }
      }
    }
  }

  /** On success the identifiers are listed in order of first occurrence. */
  lemma {:induction false} ResolveHashes(deps: seq<Entry>)
    requires Resolve(deps).Success?
    ensures Resolve(deps).value.hashes == FirstSeen(deps)
    decreases |deps|, 0
  {
    if |deps| > 0 {
      var p := deps[..|deps| - 1];
      var e := deps[|deps| - 1];
      ResolveHashes(p);
      ResolveGroupKeys(p);
      FirstSeenMembership(p, HashOf(e));
    }
  }

  /** On success an identifier has a group exactly when some
      non-development entry carries it and it is non-empty. */
  lemma ResolveGroupKeys(deps: seq<Entry>)
    requires Resolve(deps).Success?
    ensures forall h :: h in Resolve(deps).value.hashToModules <==> h != "" && GroupOf(deps, h) != []
    decreases |deps|, 1
  {
    ResolveHashes(deps);
    forall h {
      FirstSeenMembership(deps, h);
    }
  }

  /** On success each group holds exactly the names carrying its
      identifier, in lock order. */
  lemma {:induction false} ResolveGroups(deps: seq<Entry>)
    requires Resolve(deps).Success?
    ensures forall h :: h in Resolve(deps).value.hashToModules ==>
      Resolve(deps).value.hashToModules[h] == GroupOf(deps, h)
  {
    if |deps| > 0 {
      var p := deps[..|deps| - 1];
      var e := deps[|deps| - 1];
      ResolveGroups(p);
      ResolveGroupKeys(p);
      var prev := Resolve(p).value;
      var r := Resolve(deps).value;
      forall g | g in r.hashToModules
        ensures r.hashToModules[g] == GroupOf(deps, g)
      {
        var tail := if !e.dev && HashOf(e) == g then [e.name] else [];
        assert GroupOf(deps, g) == GroupOf(p, g) + tail;
        if e.dev || HashOf(e) != g {
          assert g in prev.hashToModules && r.hashToModules[g] == prev.hashToModules[g];
          assert GroupOf(deps, g) == GroupOf(p, g);
        } else if g in prev.hashToModules {
          assert r.hashToModules[g] == prev.hashToModules[g] + [e.name];
        } else {
          assert GroupOf(p, g) == [];
          assert r.hashToModules[g] == [e.name];
        }
      }
    }
  }

  /** Every non-development name with a non-empty identifier appears in
      exactly one group, and in no other. */
  lemma ResolveGroupsPartition(deps: seq<Entry>, i: nat)
    requires Resolve(deps).Success?
    requires i < |deps| && !deps[i].dev && HashOf(deps[i]) != ""
    ensures var r := Resolve(deps).value;
      && HashOf(deps[i]) in r.hashToModules
      && deps[i].name in r.hashToModules[HashOf(deps[i])]
      && forall g :: g in r.hashToModules && deps[i].name in r.hashToModules[g] ==> g == HashOf(deps[i])
  {
    ResolveManifest(deps);
    var r := Resolve(deps).value;
    assert GroupsComplete(r) && GroupsSound(r);
  }

  /** Entries whose versions carry the same non-empty fragment land in the
      same group, whatever their names. */
  lemma SameFragmentSameGroup(deps: seq<Entry>, i: nat, j: nat)
    requires Resolve(deps).Success?
    requires i < |deps| && j < |deps| && !deps[i].dev && !deps[j].dev
    requires Fragment(deps[i].version) == Fragment(deps[j].version)
    requires Fragment(deps[i].version).Some? && Fragment(deps[i].version).value != ""
    ensures var r := Resolve(deps).value; var f := Fragment(deps[i].version).value;
      && f in r.hashToModules
      && deps[i].name in r.hashToModules[f]
      && deps[j].name in r.hashToModules[f]
  {
    SameFragmentSameId(deps[i].name, deps[i].version, deps[j].name, deps[j].version);
    ResolveGroupsPartition(deps, i);
    ResolveGroupsPartition(deps, j);
  }

  /** The resolver stops at the first repeated name: the error names an
      entry whose name already occurred among the earlier non-development
      entries, while those earlier entries were still free of repeats. */
  lemma {:induction false} ResolveFirstDuplicate(deps: seq<Entry>)
    requires Resolve(deps).Failure?
    ensures exists j :: (0 <= j < |deps| && !deps[j].dev
      && Resolve(deps).error == DuplicateModule(deps[j].name)
      && deps[j].name in NonDevNames(deps[..j])
      && Distinct(NonDevNames(deps[..j])))
  {
    var p := deps[..|deps| - 1];
    if Resolve(p).Failure? {
      ResolveFirstDuplicate(p);
      var j :| 0 <= j < |p| && !p[j].dev && Resolve(p).error == DuplicateModule(p[j].name)
        && p[j].name in NonDevNames(p[..j]) && Distinct(NonDevNames(p[..j]));
      assert p[..j] == deps[..j];
      assert deps[j] == p[j];
    } else {
      ResolveNames(p);
      assert deps[..|deps| - 1] == p;
    }
  }

  /** Once the resolver has stopped on a prefix, the later entries change
      nothing: the whole run ends with the same error. */
  lemma {:induction false} FailureIsFinal(deps: seq<Entry>, k: nat)
    requires k <= |deps| && Resolve(deps[..k]).Failure?
    ensures Resolve(deps) == Resolve(deps[..k])
  {
    if k < |deps| {
      var p := deps[..|deps| - 1];
      assert p[..k] == deps[..k];
      FailureIsFinal(p, k);
    } else {
      assert deps[..k] == deps;
    }
  }

  /** Entries are only ever added: the maps built from a prefix of the lock
      file are contained in the final ones, key order and group order
      included, and no recorded identifier is overwritten. */
  lemma {:induction false} ResolvePrefix(deps: seq<Entry>, k: nat)
    requires k <= |deps| && Resolve(deps).Success?
    ensures Resolve(deps[..k]).Success?
    ensures Extends(Resolve(deps[..k]).value, Resolve(deps).value)
  {
    if k == |deps| {
      assert deps[..k] == deps;
    } else {
      var p := deps[..|deps| - 1];
      assert p[..k] == deps[..k];
      ResolvePrefix(p, k);
      VisitGrows(Resolve(p).value, deps[|deps| - 1]);
      ExtendsTransitive(Resolve(deps[..k]).value, Resolve(p).value, Resolve(deps).value);
    }
  }

  /** `b` holds everything `a` holds: key lists and groups extended at the
      end, and no recorded identifier changed. */
  ghost predicate Extends(a: Resolution, b: Resolution) {
    && a.names <= b.names
    && a.hashes <= b.hashes
    && (forall n :: n in a.moduleToHash ==> n in b.moduleToHash && b.moduleToHash[n] == a.moduleToHash[n])
    && (forall h :: h in a.hashToModules ==> h in b.hashToModules && a.hashToModules[h] <= b.hashToModules[h])
  }

  lemma ExtendsTransitive(a: Resolution, b: Resolution, c: Resolution)
    requires Extends(a, b) && Extends(b, c)
    ensures Extends(a, c)
  {
  }

  /** One iteration only adds. */
  lemma VisitGrows(r: Resolution, e: Entry)
    requires Visit(r, e).Success?
    ensures Extends(r, Visit(r, e).value)
  {
    if !e.dev {
      var h := HashOf(e);
      var x := Visit(r, e).value;
      assert x.names == r.names + [e.name];
      if h != "" && h in r.hashToModules {
        assert x.hashToModules[h] == r.hashToModules[h] + [e.name];
      }
    }
  }

  /** A dependency with a fresh, non-empty identifier opens a new group. */
  lemma VisitNewGroup(r: Resolution, e: Entry)
    requires !e.dev && e.name !in r.moduleToHash && HashOf(e) != "" && HashOf(e) !in r.hashToModules
    ensures Visit(r, e) == Success(Resolution(r.names + [e.name], r.moduleToHash[e.name := HashOf(e)],
                                              r.hashes + [HashOf(e)], r.hashToModules[HashOf(e) := [e.name]]))
  {
  }

  /** A dependency whose identifier already has a group joins the end of it. */
  lemma VisitExistingGroup(r: Resolution, e: Entry)
    requires !e.dev && e.name !in r.moduleToHash && HashOf(e) != "" && HashOf(e) in r.hashToModules
    ensures Visit(r, e) == Success(Resolution(r.names + [e.name], r.moduleToHash[e.name := HashOf(e)],
                                              r.hashes, r.hashToModules[HashOf(e) := r.hashToModules[HashOf(e)] + [e.name]]))
  {
  }

  /** Development entries are invisible: resolving the lock file gives the
      same outcome as resolving its non-development entries alone. */
  lemma {:induction false} DevEntriesIgnored(deps: seq<Entry>)
    ensures Resolve(deps) == Resolve(NonDev(deps))
  {
    if |deps| > 0 {
      var p := deps[..|deps| - 1];
      var e := deps[|deps| - 1];
      DevEntriesIgnored(p);
      if e.dev {
        assert NonDev(deps) == NonDev(p);
      } else {
        var q := NonDev(p) + [e];
        assert NonDev(deps) == q;
        assert q[..|q| - 1] == NonDev(p);
        assert q[|q| - 1] == e;
        assert Resolve(q) == match Resolve(NonDev(p))
          case Failure(err) => Failure(err)
          case Success(prev) => Visit(prev, e);
      }
    }
  }

  /** The loop of index.js, lines 27-47, written as a loop: it ends in the
      same outcome as the functional resolver. */
  method ResolveLoop(lock: Lock) returns (r: Result<Resolution, Error>)
    ensures r == ResolveLock(lock)
  {
    var names: seq<string> := [];
    var moduleToHash: map<string, string> := map[];
    var hashes: seq<string> := [];
    var hashToModules: map<string, seq<string>> := map[];
    if lock.dependencies.Some? {
      var deps := lock.dependencies.value;
      for k := 0 to |deps|
        invariant Resolve(deps[..k]) == Success(Resolution(names, moduleToHash, hashes, hashToModules))
      {
        assert deps[..k + 1][..k] == deps[..k];
        var e := deps[k];
        ghost var next := Visit(Resolution(names, moduleToHash, hashes, hashToModules), e);
        assert Resolve(deps[..k + 1]) == next;
        if !e.dev {
          var hash := DeriveId(e.name, e.version);
          if e.name in moduleToHash {
            FailureIsFinal(deps, k + 1);
            return Failure(DuplicateModule(e.name));
          }
          names := names + [e.name];
          moduleToHash := moduleToHash[e.name := hash];
          if hash != "" {
            // `hash_to_modules[hash] = []` when absent, then `push`
            var group := if hash in hashToModules then hashToModules[hash] else [];
            if hash !in hashToModules {
              hashes := hashes + [hash];
              assert group + [e.name] == [e.name];
            }
            hashToModules := hashToModules[hash := group + [e.name]];
          }
        }
        assert next == Success(Resolution(names, moduleToHash, hashes, hashToModules));
      }
      assert deps[..|deps|] == deps;
    }
    r := Success(Resolution(names, moduleToHash, hashes, hashToModules));
  }
}

=== FILE: scenarios.dfy ===
/** Concrete builds worked through the model. */
module Scenarios {
  import opened Wrappers
  import opened Text
  import opened Paths
  import opened Identifier
  import opened Resolver
  import opened Materializer

  /** A version `p#f` with `p` free of `#` gives identifier `f`. */
  lemma CommitHash(name: string, p: string, f: string)
    requires '#' !in p && f != "" && forall i :: 0 <= i < |f| ==> !IsLineTerminator(f[i])
    ensures HashOf(Entry(name, p + "#" + f, false)) == f
  {
    DeriveIdOfCommit(name, p, f);
  }

  /** Resolving two entries is visiting them in turn. */
  lemma ResolveTwo(e1: Entry, e2: Entry)
    requires Visit(Empty, e1).Success?
    ensures Resolve([e1, e2]) == Visit(Visit(Empty, e1).value, e2)
  {
    var deps := [e1, e2];
    assert deps[..1] == [e1];
    assert [e1][..0] == [];
    assert Resolve([]) == Success(Empty);
    assert Resolve([e1]) == Visit(Empty, e1);
  }

  /** The first non-development entry opens the first group. */
  lemma VisitFirst(e: Entry)
    requires !e.dev && HashOf(e) != ""
    ensures Visit(Empty, e) == Success(Resolution([e.name], map[e.name := HashOf(e)], [HashOf(e)], map[HashOf(e) := [e.name]]))
  {
    VisitNewGroup(Empty, e);
    assert [] + [e.name] == [e.name] && [] + [HashOf(e)] == [HashOf(e)];
  }

  lemma RegistryAndGitResolve(a: string, va: string, b: string, prefix: string, f: string)
    requires a != "" && a != b && a != f && '#' !in va
    requires '#' !in prefix && f != "" && forall i :: 0 <= i < |f| ==> !IsLineTerminator(f[i])
    ensures Resolve([Entry(a, va, false), Entry(b, prefix + "#" + f, false)])
      == Success(Resolution([a, b], map[a := a, b := f], [a, f], map[a := [a], f := [b]]))
  {
    var e1 := Entry(a, va, false);
    var e2 := Entry(b, prefix + "#" + f, false);
    DeriveIdWithoutHash(a, va);
    CommitHash(b, prefix, f);
    VisitFirst(e1);
    var r1 := Resolution([a], map[a := a], [a], map[a := [a]]);
    VisitNewGroup(r1, e2);
    assert [a] + [b] == [a, b] && [a] + [f] == [a, f];
    ResolveTwo(e1, e2);
  }

  /** The plan for a list is the plan for its head followed by the plan
      for the rest. */
  lemma CopyPlanCons(cwd: string, dist: string, h: string, rest: seq<string>, groups: map<string, seq<string>>,
                     configs: map<string, PackageConfig>, source: string, tail: seq<Copy>)
    requires h in groups && groups[h] != [] && ModuleDist(cwd, groups[h][0], configs) == Success(source)
    requires forall k :: k in rest ==> k in groups && groups[k] != []
    requires CopyPlan(cwd, dist, rest, groups, configs) == Success(tail)
    ensures CopyPlan(cwd, dist, [h] + rest, groups, configs) == Success([Copy(h, groups[h][0], source, Join(dist, h))] + tail)
  {
    assert ([h] + rest)[0] == h;
    assert ([h] + rest)[1..] == rest;
  }

  /** The plan for a single identifier. */
  lemma CopyPlanOne(cwd: string, dist: string, h: string, groups: map<string, seq<string>>,
                    configs: map<string, PackageConfig>)
    requires h in groups && groups[h] != [] && Ready(groups[h][0], configs)
    ensures CopyPlan(cwd, dist, [h], groups, configs)
      == Success([Copy(h, groups[h][0], ModuleDist(cwd, groups[h][0], configs).value, Join(dist, h))])
  {
    var source := ModuleDist(cwd, groups[h][0], configs).value;
    assert CopyPlan(cwd, dist, [], groups, configs) == Success([]);
    CopyPlanCons(cwd, dist, h, [], groups, configs, source, []);
    assert [h] + [] == [h];
    assert [Copy(h, groups[h][0], source, Join(dist, h))] + [] == [Copy(h, groups[h][0], source, Join(dist, h))];
  }

  /** The plan for two identifiers. */
  lemma CopyPlanTwo(cwd: string, dist: string, h1: string, h2: string, groups: map<string, seq<string>>,
                    configs: map<string, PackageConfig>)
    requires h1 in groups && groups[h1] != [] && Ready(groups[h1][0], configs)
    requires h2 in groups && groups[h2] != [] && Ready(groups[h2][0], configs)
    ensures CopyPlan(cwd, dist, [h1, h2], groups, configs)
      == Success([Copy(h1, groups[h1][0], ModuleDist(cwd, groups[h1][0], configs).value, Join(dist, h1)),
                  Copy(h2, groups[h2][0], ModuleDist(cwd, groups[h2][0], configs).value, Join(dist, h2))])
  {
    CopyPlanOne(cwd, dist, h2, groups, configs);
    var c2 := Copy(h2, groups[h2][0], ModuleDist(cwd, groups[h2][0], configs).value, Join(dist, h2));
    var source := ModuleDist(cwd, groups[h1][0], configs).value;
    CopyPlanCons(cwd, dist, h1, [h2], groups, configs, source, [c2]);
    assert [h1] + [h2] == [h1, h2];
    var c1 := Copy(h1, groups[h1][0], source, Join(dist, h1));
    assert [c1] + [c2] == [c1, c2];
  }

  /** A registry package `a` locked at a plain version and a git package
      `b` locked at a commit `f`, in a project whose entry file sits in
      `dir`: the registry package is copied under its name, the git package
      under its commit, both into the project output folder, and the
      manifest maps each name to its identifier in lock order. */
  lemma RegistryAndGitScenario(cwd: string, a: string, va: string, b: string, prefix: string, f: string,
                               project: PackageConfig, dir: string, file: string, configs: map<string, PackageConfig>)
    requires a != "" && a != b && a != f && '#' !in va
    requires '#' !in prefix && f != "" && forall i :: 0 <= i < |f| ==> !IsLineTerminator(f[i])
    requires EntryPoint(project) == Some(Join(dir, file)) && file != "" && '/' !in file
    requires Ready(a, configs) && Ready(b, configs)
    ensures Build(cwd, Lock(Some([Entry(a, va, false), Entry(b, prefix + "#" + f, false)])), project, configs)
      == Success(Output(
           [Copy(a, a, ModuleDist(cwd, a, configs).value, Join(Join(cwd, dir), a)),
            Copy(f, b, ModuleDist(cwd, b, configs).value, Join(Join(cwd, dir), f))],
           Manifest([a, b], map[a := a, b := f])))
  {
    RegistryAndGitResolve(a, va, b, prefix, f);
    ProjectDistOfEntry(cwd, project, dir, file);
    var res := Resolution([a, b], map[a := a, b := f], [a, f], map[a := [a], f := [b]]);
    CopyPlanTwo(cwd, Join(cwd, dir), a, f, res.hashToModules, configs);
    BuildFromStages(cwd, Lock(Some([Entry(a, va, false), Entry(b, prefix + "#" + f, false)])), project, configs,
                    res, Join(cwd, dir),
                    [Copy(a, a, ModuleDist(cwd, a, configs).value, Join(Join(cwd, dir), a)),
                     Copy(f, b, ModuleDist(cwd, b, configs).value, Join(Join(cwd, dir), f))]);
  }

  /** A second entry with the first entry's identifier joins its group. */
  lemma JoinFirstGroup(a: string, f: string, e: Entry)
    requires !e.dev && e.name != a && f != "" && HashOf(e) == f
    ensures Visit(Resolution([a], map[a := f], [f], map[f := [a]]), e)
      == Success(Resolution([a, e.name], map[a := f, e.name := f], [f], map[f := [a, e.name]]))
  {
    VisitExistingGroup(Resolution([a], map[a := f], [f], map[f := [a]]), e);
    assert [a] + [e.name] == [a, e.name];
    assert map[f := [a]][f := [a, e.name]] == map[f := [a, e.name]];
  }

  lemma SharedCommitResolve(a: string, pa: string, b: string, pb: string, f: string)
    requires a != b
    requires '#' !in pa && '#' !in pb && f != "" && forall i :: 0 <= i < |f| ==> !IsLineTerminator(f[i])
    ensures Resolve([Entry(a, pa + "#" + f, false), Entry(b, pb + "#" + f, false)])
      == Success(Resolution([a, b], map[a := f, b := f], [f], map[f := [a, b]]))
  {
    var e1 := Entry(a, pa + "#" + f, false);
    var e2 := Entry(b, pb + "#" + f, false);
    CommitHash(a, pa, f);
    CommitHash(b, pb, f);
    VisitFirst(e1);
    JoinFirstGroup(a, f, e2);
    ResolveTwo(e1, e2);
  }

  /** Two packages locked at the same commit `f` form one group: a single
      copy is made, from the first of them, and both names map to the
      commit in the manifest. */
  lemma SharedCommitScenario(cwd: string, a: string, pa: string, b: string, pb: string, f: string,
                             project: PackageConfig, configs: map<string, PackageConfig>)
    requires a != b
    requires '#' !in pa && '#' !in pb && f != "" && forall i :: 0 <= i < |f| ==> !IsLineTerminator(f[i])
    requires EntryPoint(project).Some? && Ready(a, configs)
    ensures Build(cwd, Lock(Some([Entry(a, pa + "#" + f, false), Entry(b, pb + "#" + f, false)])), project, configs)
      == Success(Output(
           [Copy(f, a, ModuleDist(cwd, a, configs).value, Join(ProjectDist(cwd, project).value, f))],
           Manifest([a, b], map[a := f, b := f])))
  {
    SharedCommitResolve(a, pa, b, pb, f);
    var res := Resolution([a, b], map[a := f, b := f], [f], map[f := [a, b]]);
    var dist := ProjectDist(cwd, project).value;
    CopyPlanOne(cwd, dist, f, res.hashToModules, configs);
    BuildFromStages(cwd, Lock(Some([Entry(a, pa + "#" + f, false), Entry(b, pb + "#" + f, false)])), project, configs,
                    res, dist, [Copy(f, a, ModuleDist(cwd, a, configs).value, Join(dist, f))]);
  }

  /** A dependency listed twice stops the build with its name, whatever
      else the project holds. */
  lemma DuplicateScenario(project: PackageConfig, configs: map<string, PackageConfig>)
    ensures var deps := [Entry("a", "1.0.0", false), Entry("b", "2.0.0", true), Entry("a", "x#c", false)];
      Build("", Lock(Some(deps)), project, configs) == Failure(DuplicateModule("a"))
  {
    var deps := [Entry("a", "1.0.0", false), Entry("b", "2.0.0", true), Entry("a", "x#c", false)];
    assert deps[..2][..1] == deps[..1];
    assert deps[..1][..0] == [];
    assert Resolve(deps[..1]) == Visit(Empty, deps[0]);
    assert "a" in Resolve(deps[..1]).value.moduleToHash;
    assert Resolve(deps[..2]) == Resolve(deps[..1]);
    assert Resolve(deps) == Visit(Resolve(deps[..2]).value, deps[2]);
  }
}

=== FILE: text.dfy ===
/** Character searches on strings, the building blocks of the regular
    expression match and of the path functions. */
module Text {
  import opened Wrappers

  /** Index of the first occurrence of `c` in `s`. */
  function IndexOf(s: string, c: char): (r: Option<nat>)
    ensures r.None? <==> c !in s
    ensures r.Some? ==> r.value < |s| && s[r.value] == c && c !in s[..r.value]
  {
    if |s| == 0 then None
    else if s[0] == c then Some(0)
    else match IndexOf(s[1..], c)
      case None => None
      case Some(i) =>
        assert s[1..][..i] == s[1..i + 1];
        Some(i + 1)
  }

  /** Index of the last occurrence of `c` in `s`. */
  function LastIndexOf(s: string, c: char): (r: Option<nat>)
    ensures r.None? <==> c !in s
    ensures r.Some? ==> r.value < |s| && s[r.value] == c && c !in s[r.value + 1..]
  {
    if |s| == 0 then None
    else if s[|s| - 1] == c then Some(|s| - 1)
    else
      assert s == s[..|s| - 1] + [s[|s| - 1]];
      LastIndexOf(s[..|s| - 1], c)
  }

  /** The characters ECMAScript treats as line terminators: a regular
      expression `.` matches anything but these. */
  predicate IsLineTerminator(c: char) {
    c == '\n' || c == '\r' || c == '\U{2028}' || c == '\U{2029}'
  }

  /** What `.*` matches greedily at the start of `s`: the longest prefix
      without a line terminator. */
  function TakeLine(s: string): (r: string)
    ensures r <= s
    ensures forall i :: 0 <= i < |r| ==> !IsLineTerminator(r[i])
    ensures |r| < |s| ==> IsLineTerminator(s[|r|])
  {
    if |s| == 0 || IsLineTerminator(s[0]) then ""
    else [s[0]] + TakeLine(s[1..])
  }
}

=== FILE: wrappers.dfy ===
/** Failure-compatible datatypes used throughout the model: `Option` for
    JavaScript values that may be `undefined`, `Result` for the places where
    the builder prints an error and exits. */
module Wrappers {

  datatype Option<+T> = None | Some(value: T)

  datatype Result<+R, +E> = Success(value: R) | Failure(error: E) {

    predicate IsFailure() {
      Failure?
    }

    function PropagateFailure<U>(): Result<U, E>
      requires Failure?
    {
      Failure(error)
    }

    function Extract(): R
      requires Success?
    {
      value
    }
  }

  /** The diagnostics on which the builder stops. */
  datatype Error =
    | DuplicateModule(name: string)       // a dependency name seen twice in the lock file
    | ProjectEntryMissing                 // package.json has neither a non-empty `main` nor a `browser`
    | MissingPackageConfig(pkg: string) // node_modules/<pkg>/package.json cannot be read
    | ModuleEntryMissing(pkg: string) // that package.json has neither a non-empty `main` nor a `browser`
}
